=== FILE: README.md ===
# Epic Notes authentication core, modelled in Dafny

This project models the sequential logic under the request handlers of a notes
web application with accounts and one-time-code verification. It covers:

- **The verification-record store.** This is a table of TOTP challenges keyed by
  the pair (target, type). TOTP is the time-based one-time password of RFC 6238.
  The store is modelled as an immutable map, with upsert, delete and a lookup that
  skips expired records.
- **The verify flow.** It checks the code's shape, finds a live record, runs the
  TOTP check, deletes the record it used and writes the onboarding email into the
  verification cookie.
- **The 2FA settings page.** Its loader reports whether 2FA is enabled. Its
  action upserts a ten-minute enrolment challenge.
- **Login, password creation, the signup honeypot and the GitHub mock
  redirect.** Each is a pure decision function from (guards, form, cookie
  session, store, now) to a `Response`. The mock redirect pairs a `state` nonce
  in the connection cookie with the `state` query parameter, as in sections 4.1.2
  and 10.12 of RFC 6749.
- **Small utilities.** These are error-message extraction, `invariantResponse`,
  header combining, image paths, and the username normaliser of the test-fixture
  user factory.

The model has these conventions:

- Time is a `nat` of milliseconds passed in as `now`.
- Foreign code comes in as parameters:
  - the TOTP check and generator;
  - the credential check `login`;
  - password hashing;
  - `safeRedirect`;
  - the username and password field schemas;
  - the authenticator.
- Guards are `Gate` inputs. A gate either passes or carries the response it
  throws. The guards are `requireUserId`, `requireAnonymous`, `validateCSRF` and
  `checkHoneypot`.
- Some constants are defined in files outside this model: `userIdKey`,
  `onboardingEmailSessionKey`, `twoFAVerifyVerificationType` and the fallback
  user image. They are parameters too.
- A response the framework would receive by `throw` is an ordinary return value.
- String lengths checked by the request schemas are JavaScript lengths, in UTF-16 code units (`Http.Utf16Length`).

In the verify route a code of the wrong length is always refused, yet the
record lookup and the TOTP check still run for it: a length failure does not
abort the request schema, only a missing field or an unknown type does (in
the source also an empty one, which the form library turns into a missing
value; see "Left out").

Modules, one per source file:

- `Http`: shared response, cookie and submission types.
- `AuthServer`: session expiry.
- `VerificationStore`: the record store.
- `Verify`: the verify route.
- `TwoFactor`: the 2FA settings page.
- `Login`: the login route.
- `PasswordCreate`: the password-creation route.
- `Signup`: the signup honeypot.
- `GithubAuth`: the GitHub sign-in route.
- `Misc`: the small utilities.
- `DbUtils`: the test-fixture user factory.

## Model

| member | source | states |
|---|---|---|
| AuthServer.SessionExpirationDate | app/utils/auth.server.ts:9-11 | the expiry is strictly after now and exactly 30 days (2592000000 ms) later |
| AuthServer.ExpirationShift | app/utils/auth.server.ts:10-11 | a later creation time gives a later expiry, shifted by the same amount |
| VerificationStore.FindLive | app/routes/_auth+/verify.tsx:80-95 | a config is found exactly when a record exists under (target, type) and its expiresAt is null or strictly after now; the config is that record's |
| VerificationStore.FindLiveMatchesScan | app/routes/_auth+/verify.tsx:88-94 | on a well-keyed store, the keyed lookup agrees with a scan for a live record whose own target and type match |
| VerificationStore.ExpiryIsPermanent | app/routes/_auth+/verify.tsx:93 | a lookup that misses at now misses at every later time |
| VerificationStore.ExpiryBoundary | app/routes/_auth+/verify.tsx:93 | expiresAt == now counts as expired; now + 1 is live; a null expiry is always live |
| VerificationStore.Upsert | app/routes/settings+/profile.two-factor.index.tsx:46-52 | the record sits under its own key afterwards, all other records are unchanged, well-keyedness is kept |
| VerificationStore.Delete | app/routes/_auth+/verify.tsx:130-137 | the key is gone and every other record is unchanged |
| Verify.Issues | app/routes/_auth+/verify.tsx:36-116 | the schema issues come first; a missing field or a bad type aborts the schema and skips the store, but a wrong-length code does not; "Invalid code" is added exactly when the refinement runs and the record is missing, expired or rejects the code; no issues iff the code is accepted |
| Verify.ValidateRequest | app/routes/_auth+/verify.tsx:66-151 | non-submit means idle; a refused submit means 400 with issues and no store or cookie change; an accepted one (valid shape, live record, TOTP ok) deletes exactly that record, sets the onboarding email to target and redirects to /onboarding; a cookie is set iff accepted; the echoed payload is the body without the intent field |
| Verify.VerifyLoader | app/routes/_auth+/verify.tsx:43-58 | without a code parameter: idle, params echoed, no issues, store untouched; otherwise the same as validating |
| Verify.VerifyAction | app/routes/_auth+/verify.tsx:60-64 | a CSRF failure ends the request with the store unchanged; otherwise the same as validating |
| Http.Utf16Length | app/routes/_auth+/verify.tsx:37 | a string's JavaScript length lies between its character count and twice it, and equals the character count iff no character lies above U+FFFF |
| Verify.WrongLengthAlwaysRefused | app/routes/_auth+/verify.tsx:121-126 | a submitted code whose length is not 6 always gets 400 with the shape issue on code first, deletes nothing and sets no cookie |
| Verify.WrongLengthStillConsultsStore | app/routes/_auth+/verify.tsx:70-116 | with a valid target and type, a wrong-length code still triggers the lookup and the TOTP check: "Invalid code" follows the shape issue exactly when the record does not accept the code |
| Verify.AbortedNeverConsultsStore | app/routes/_auth+/verify.tsx:36-72 | a missing field or a type other than "onboarding" aborts the schema: the response is the same for every store and TOTP checker and nothing is consumed |
| Verify.CodeLengthCountsCodeUnits | app/routes/_auth+/verify.tsx:37 | the length check counts UTF-16 code units: five characters ending in U+1F600 pass, six such characters fail |
| Verify.OnlyOnboardingType | app/routes/_auth+/verify.tsx:32-40 | any type other than "onboarding" gets a schema issue on type and consumes nothing |
| Verify.RefusalsAreIndistinguishable | app/routes/_auth+/verify.tsx:96-115 | a missing record, an expired record and a failed TOTP check all yield exactly [Invalid code on code] |
| Verify.NoReplay | app/routes/_auth+/verify.tsx:130-137 | after a success, replaying the same body at any later time gets 400 with "Invalid code" and changes nothing |
| Verify.RedirectToIgnored | app/routes/_auth+/verify.tsx:139-150 | on success, changing redirectTo changes neither the response nor the store |
| TwoFactor.TwoFALoader | app/routes/settings+/profile.two-factor.index.tsx:19-28 | after the user guard, isTwoFAEnabled holds iff a "2fa" record exists for the user, with no expiry filter |
| TwoFactor.EnableTwoFA | app/routes/settings+/profile.two-factor.index.tsx:30-54 | guards first; then exactly one record under (userId, verify type) holds the generated config and expires at now + 600000; other records are unchanged; redirects to the verify page |
| TwoFactor.EnableIgnoresPriorRecord | app/routes/settings+/profile.two-factor.index.tsx:36-52 | create and update are identical: stores that agree away from the key end up equal |
| TwoFactor.EnableDropsOtp | app/routes/settings+/profile.two-factor.index.tsx:35-41 | the generated code does not reach the store |
| TwoFactor.EnrolmentChallengeLifetime | app/routes/settings+/profile.two-factor.index.tsx:43 | the challenge is found exactly before now + 10 minutes; when the verify type is not "2fa" it leaves the "2fa" status unchanged |
| TwoFactor.EnabledIgnoresExpiry | app/routes/settings+/profile.two-factor.index.tsx:22-27 | an expired "2fa" record still reports enabled, although the filtered lookup misses it |
| Login.LoginLoader | app/routes/_auth+/login.tsx:38-41 | only anonymous requests get through |
| Login.LoginAction | app/routes/_auth+/login.tsx:43-104 | guards run in order (anonymous, CSRF, honeypot); non-submit means idle; the password never appears in the echoed payload or value, the intent field is not echoed and every other field is; a cookie is set iff submit, schema ok and the user is found; any other submit gets 400 with status error and the schema issues, or the single form-level "Invalid username or password" when the schema passed; the cookie then maps userIdKey to the user id, expires 30 days out iff remember, and the redirect is safeRedirect(redirectTo) |
| Login.NonSubmitNeverLogsIn | app/routes/_auth+/login.tsx:49-75 | for a non-submit intent the credential check is never consulted and no cookie is set |
| Login.GenericFailure | app/routes/_auth+/login.tsx:53-78 | unknown credentials give 400 with exactly one form-level "Invalid username or password", the same for every refusing check |
| Login.RememberedCookieMatchesSession | app/routes/_auth+/login.tsx:94-101 | a remembered cookie expires at getSessionExpirationDate(now) |
| PasswordCreate.RequireNoPassword | app/routes/settings+/profile.password_.create.tsx:42-50 | halts iff the user has a password, redirecting to /settings/profile/password |
| PasswordCreate.CreatePasswordLoader | app/routes/settings+/profile.password_.create.tsx:52-56 | a user with a password is redirected, others get the empty page data |
| PasswordCreate.CreatePasswordAction | app/routes/settings+/profile.password_.create.tsx:58-92 | guards before the form; payload always cleared; non-submit is idle with value cleared and no write; invalid is 400 with no write; the echoed issues are the form's issues, so a mismatch reaches the client as "The passwords must match"; valid writes exactly hash(newPassword) for the user and redirects to /settings/profile |
| PasswordCreate.Issues | app/routes/settings+/profile.password_.create.tsx:27-40 | no issues iff both entries are present, pass the password schema and are equal; "The passwords must match" is raised iff both are present and differ, even when an entry fails the password checks |
| PasswordCreate.MismatchIssue | app/routes/settings+/profile.password_.create.tsx:27-40 | two different entries always get "The passwords must match" on confirmNewPassword; when both pass the password schema it is the only issue |
| PasswordCreate.AtMostOneCreate | app/routes/settings+/profile.password_.create.tsx:42-91 | after a create, the same user's next request, loader or action, hits the guard and writes nothing |
| Signup.SignupAction | app/routes/_auth+/signup.tsx:12-18 | a non-empty name throws 400 "Form not submitted properly"; an absent or empty name redirects to / |
| Signup.OnlyNameInspected | app/routes/_auth+/signup.tsx:13-17 | forms that agree on name get the same response |
| GithubAuth.GithubLoader | app/routes/_auth+/auth.github.ts:6-8 | always redirects to /login |
| GithubAuth.GithubAction | app/routes/_auth+/auth.github.ts:10-41 | mock mode iff the client id starts with MOCK_; the mock redirect goes to the callback with exactly code and state, and the cookie stores state under oauth2:state; otherwise it delegates |
| GithubAuth.MockStateRoundTrip | app/routes/_auth+/auth.github.ts:24-37 | the mock redirect passes the callback's state check, a forged state fails it, and the code is MOCK_GITHUB_CODE_KODY |
| Misc.GetErrorMessage | app/utils/misc.tsx:19-31 | a string is returned unchanged; an object with a string message gives it; everything else gives "Unknown Error" |
| Misc.ErrorMessageCases | app/utils/misc.error-message.test.ts:8-33 | an Error object gives its message, a string itself, and undefined "Unknown Error" |
| Misc.InvariantResponse | app/utils/misc.tsx:56-71 | returns normally iff the condition is truthy; otherwise the response has status 400 unless the init supplies one, and body message(), a non-empty message, or the default text; the status is first reduced modulo 65536 (an unsigned short); a reduced status outside 200..599 raises a RangeError and a no-body status (204, 205, 304) a TypeError instead |
| Misc.UnsignedShort | app/utils/misc.tsx:63-68 | the status the constructor sees is in 0..65535, congruent to the given one modulo 65536, and unchanged when already in range |
| Misc.InvariantStatusCases | app/utils/misc.tsx:62-69 | with no status or an undefined one a falsy condition throws a 400 or 200 response; an unsigned short outside 200..599 (and -1, which wraps to 65535) raises a RangeError, 204 a TypeError; 65736 wraps to 200 and throws a 200 response, 65740 wraps to 204 and raises a TypeError |
| Misc.CombineHeaders | app/utils/misc.tsx:183-194 | the result is the entries of the present arguments concatenated in order, and every entry of every argument is kept |
| Misc.ConcatAppend | app/utils/misc.tsx:186-192 | combining distributes over splitting the argument list |
| Misc.ConcatKeepsEntries | app/utils/misc.tsx:186-192 | appending never drops or replaces an entry |
| Misc.GetUserImgSrc | app/utils/misc.tsx:8-10 | a non-empty id gives /resources/user-images/ followed by the id; a missing or empty id gives the fallback |
| Misc.GetNoteImgSrc | app/utils/misc.tsx:12-14 | always /resources/note-images/ followed by the id |
| Misc.ImagePathsRoundTrip | app/utils/misc.tsx:8-14 | the id is recovered from the path built for it |
| Misc.NoteImgSrcInjective | app/utils/misc.tsx:12-14 | distinct note ids give distinct paths |
| DbUtils.ToLowerAscii | tests/db-utils.ts:29 | lowering keeps the length and maps each position by the ASCII rule |
| DbUtils.ReplaceInvalid | tests/db-utils.ts:30 | replacing keeps the length and maps each character outside [a-z0-9_] to _ |
| DbUtils.NormalizeUsername | tests/db-utils.ts:17-30 | length is min(raw, 20); every character is in [a-z0-9_]; each position is kept, lowered or replaced by _ |
| DbUtils.NormalizeIdempotent | tests/db-utils.ts:28-30 | normalising a normalised username changes nothing |
| DbUtils.UsernamePrefixShape | tests/db-utils.ts:17-30 | with a two-alphanumeric prefix and _, the username starts with two [a-z0-9] characters and then _ |
| DbUtils.CreateUser | tests/db-utils.ts:32-36 | the email is the username then @example.com; the name is first, one space, last |
| DbUtils.NormalizeExample | tests/db-utils.ts:28-30 | "Ab_John.Doe" normalises to "ab_john_doe" |

## Left out

- TOTP generation and checking, from RFC 6238 section 4: `totp` and the generator's output are inputs.
- Password hashing, cookie signing and serialisation, the CSRF validator, the honeypot library, `safeRedirect`, `cuid` and the authenticator: these are foreign. They appear only as parameters or guard results.
- `login`, `requireUserId`, `requireAnonymous`, `userIdKey`, `onboardingEmailSessionKey` and `twoFAVerifyVerificationType` are defined outside the modelled files. The functions are `Gate` inputs and the constants are parameters.
- The username and password field schemas are defined outside the modelled files. They are boolean parameters, and their issue messages are not modelled. Since form values are always strings, a present entry passes the schema's type check, so only a missing field aborts the object schema; the password checks are non-fatal, and the match refinement of password creation runs whenever both entries are present.
- Prisma is replaced by immutable maps. Record ids and timestamps are not modelled, so `TwoFactor.EnableIgnoresPriorRecord` speaks of the modelled columns only; an update keeps the old row's id, a create makes a new one. The users table and the error Prisma raises for a missing user are not modelled.
- The check-then-delete race between the lookup and the delete in the verify flow is not modelled. It is a concurrency matter and the model is sequential.
- The form library's rules are modelled as follows:
  - The intent comes from its reserved `__intent__` field and defaults to "submit".
  - A checked remember box submits "on".
  - Its coercion of empty strings to undefined is not modelled, so an empty field counts as a present string.
  - Repeated form keys and file values are not modelled.
- `Verify.ValidateRequest` and `GithubAuth.GithubAction` give the committed verification and connection cookies no expiry. Any maxAge would come from the cookie options of those session storages, which are defined outside the modelled files.
- `Login.LoginAction` echoes a value that holds the raw string fields, not the schema's parsed types.
- `Misc.InvariantResponse` assumes the Fetch-standard `Response` constructor that Node ships: it converts the status to an unsigned short and then checks the range and the no-body statuses. An older polyfill installed in place of the built-in class may check no status at all; that constructor is not modelled.
- Real `Headers` semantics are not modelled: no case folding of names and no comma joining. `CombineHeaders` works on lists of pairs.
- `GithubAuth.GithubAction` keeps the query as a list of pairs and does not model URL encoding.
- `DbUtils.NormalizeUsername`, `DbUtils.CreateUser` and `DbUtils.UsernamePrefixShape` require ASCII input, because JavaScript lowering of non-ASCII text can change a string's length.
- The randomness of faker and the uniqueness retry are not modelled: the random strings are inputs.
- `console.error` logging in `getErrorMessage` is not modelled. It is I/O.
- JavaScript numbers are integers here, so NaN is not modelled.
- React hooks and components are not modelled: `useIsPending`, `useIsSubmitting`, `useDebounce` and its timers, `useDelayedIsPending`, `cn` and the page components.
- The stub and plumbing routes are not part of this model: the GitHub callback, 2FA disable, profile, logout and root.
- The 2FA verify route that defines `twoFAVerifyVerificationType` is not part of this model.

=== FILE: auth_server.dfy ===
/**
 * Session expiry arithmetic. Time is milliseconds since the epoch, passed in
 * as `now` instead of read from the clock.
 */
module AuthServer {

  const MsPerDay: nat := 1000 * 60 * 60 * 24

  /** Thirty days, in milliseconds. */
  const SessionExpirationTime: nat := 1000 * 60 * 60 * 24 * 30

  /** The expiry of a session created at `now`: thirty days later, and so
      strictly in the future. */
  function SessionExpirationDate(now: nat): (expires: nat)
    ensures expires > now
    ensures expires - now == 30 * MsPerDay == 2592000000
  {
    now + SessionExpirationTime
  }

  /** A later creation time gives a later expiry, shifted by exactly the
      same amount: the session lifetime does not depend on when it starts. */
  lemma ExpirationShift(a: nat, b: nat)
    requires a <= b
    ensures SessionExpirationDate(a) <= SessionExpirationDate(b)
    ensures SessionExpirationDate(b) - SessionExpirationDate(a) == b - a
  {
  }
}

=== FILE: db_utils.dfy ===
/**
 * The test-fixture user factory: a raw username (two random alphanumerics,
 * an underscore and a generated handle) is cut to 20 characters, lowered
 * and stripped of every character outside [a-z0-9_]; the email and display
 * name are derived from it. Random generation is not modelled: the random
 * strings are inputs. Lowering is modelled for ASCII text only.
 */
module DbUtils {

  const MaxUsernameLength: nat := 20
  const EmailDomain: string := "@example.com"

  predicate IsAscii(s: string) {
    forall i :: 0 <= i < |s| ==> s[i] as int < 128
  }

  predicate IsLower(c: char) { 'a' <= c <= 'z' }
  predicate IsUpper(c: char) { 'A' <= c <= 'Z' }
  predicate IsDigit(c: char) { '0' <= c <= '9' }

  /** The characters a normalised username may contain. */
  predicate UsernameChar(c: char) {
    IsLower(c) || IsDigit(c) || c == '_'
  }

  /** ASCII lowering of one character. */
  function LowerChar(c: char): char {
    if IsUpper(c) then (c as int + 32) as char else c
  }

  /** The replacement of one character outside [a-z0-9_] by `_`. */
  function ReplaceChar(c: char): char {
    if UsernameChar(c) then c else '_'
  }

  function Min(a: nat, b: nat): nat {
    if a <= b then a else b
  }

  /** Lowers every character, position by position. */
  function ToLowerAscii(s: string): (r: string)
    ensures |r| == |s|
    ensures forall i :: 0 <= i < |s| ==> r[i] == LowerChar(s[i])
  {
    if s == [] then [] else [LowerChar(s[0])] + ToLowerAscii(s[1..])
  }

  /** Replaces every character outside [a-z0-9_] by `_`, position by position. */
  function ReplaceInvalid(s: string): (r: string)
    ensures |r| == |s|
    ensures forall i :: 0 <= i < |s| ==> r[i] == ReplaceChar(s[i])
  {
    if s == [] then [] else [ReplaceChar(s[0])] + ReplaceInvalid(s[1..])
  }

  /** The username normalisation: slice to 20, lower, replace. Its length is
      min(|raw|, 20); each character comes from the one at the same position:
      lower-case letters, digits and `_` are kept, upper-case letters are
      lowered, and everything else becomes `_`. */
  function NormalizeUsername(raw: string): (u: string)
    requires IsAscii(raw)
    ensures |u| == Min(|raw|, MaxUsernameLength) <= MaxUsernameLength
    ensures forall i :: 0 <= i < |u| ==> UsernameChar(u[i])
    ensures forall i :: 0 <= i < |u| ==>
      (UsernameChar(raw[i]) ==> u[i] == raw[i])
      && (IsUpper(raw[i]) ==> u[i] == (raw[i] as int + 32) as char)
      && (!UsernameChar(raw[i]) && !IsUpper(raw[i]) ==> u[i] == '_')
  {
    ReplaceInvalid(ToLowerAscii(raw[..Min(|raw|, MaxUsernameLength)]))
  }

  /** Normalisation is idempotent: a normalised username is its own
      normal form. */
  lemma NormalizeIdempotent(raw: string)
    requires IsAscii(raw)
    ensures IsAscii(NormalizeUsername(raw))
    ensures NormalizeUsername(NormalizeUsername(raw)) == NormalizeUsername(raw)
  {
  }

  /** The shape the factory promises: with a raw username made of two ASCII
      letters or digits, an underscore and a handle, the first two characters
      of the username are in [a-z0-9] and the third is `_`. */
  lemma UsernamePrefixShape(prefix: string, handle: string)
    requires |prefix| == 2
    requires forall i :: 0 <= i < 2 ==> IsLower(prefix[i]) || IsUpper(prefix[i]) || IsDigit(prefix[i])
    requires IsAscii(handle)
    ensures IsAscii(prefix + "_" + handle)
    ensures var u := NormalizeUsername(prefix + "_" + handle);
      && |u| >= 3
      && (IsLower(u[0]) || IsDigit(u[0]))
      && (IsLower(u[1]) || IsDigit(u[1]))
      && u[2] == '_'
  {
  }

  /** A fixture user. */
  datatype UserFixture = UserFixture(username: string, name: string, email: string)

  /** Builds a fixture user from a first and last name and the raw
      username. The email is the username at example.com and the display
      name is the first and last name joined by one space. */
  function CreateUser(firstName: string, lastName: string, rawUsername: string): (u: UserFixture)
    requires IsAscii(rawUsername)
    ensures u.username == NormalizeUsername(rawUsername)
    ensures |u.email| == |u.username| + |EmailDomain| <= MaxUsernameLength + |EmailDomain|
    ensures u.email[..|u.username|] == u.username && u.email[|u.username|..] == EmailDomain
    ensures |u.name| == |firstName| + 1 + |lastName|
    ensures u.name[..|firstName|] == firstName && u.name[|firstName|] == ' '
    ensures u.name[|firstName| + 1..] == lastName
  {
    var username := NormalizeUsername(rawUsername);
    UserFixture(username, firstName + " " + lastName, username + EmailDomain)
  }

  /** A worked case: "Ab_John.Doe" normalises to "ab_john_doe". */
  lemma NormalizeExample()
    ensures NormalizeUsername("Ab_John.Doe") == "ab_john_doe"
  {
    var u := NormalizeUsername("Ab_John.Doe");
    assert |u| == 11;
    assert u[0] == 'a' && u[1] == 'b' && u[2] == '_' && u[3] == 'j' && u[4] == 'o' && u[5] == 'h';
    assert u[6] == 'n' && u[7] == '_' && u[8] == 'd' && u[9] == 'o' && u[10] == 'e';
  }
}

=== FILE: github_auth.dfy ===
/**
 * The GitHub sign-in route. In mock mode (a client id starting with
 * "MOCK_") the action imitates the provider: it stores a fresh `state`
 * nonce in the connection cookie and redirects straight to the callback
 * with that state and a fixed code. Otherwise it hands the request to the
 * authenticator, whose response is an input here, as is the nonce.
 * The state round trip is the CSRF defence of section 10.12 of RFC 6749;
 * `code` and `state` are the parameters of section 4.1.2.
 */
module GithubAuth {
  import opened Http

  const MockPrefix: string := "MOCK_"
  const MockCode: string := "MOCK_GITHUB_CODE_KODY"
  const StateKey: string := "oauth2:state"
  const CallbackPath: string := "/auth/github/callback"
  const LoginPath: string := "/login"

  /** The loader never renders: it always sends the visitor to the login page. */
  function GithubLoader(): (r: Response)
    ensures r.Redirect? && r.location == Url(LoginPath, []) && !SetsCookie(r)
  {
    RedirectTo(LoginPath)
  }

  /** Mock mode: the client id is set and starts with "MOCK_". */
  predicate IsMock(clientId: Option<string>) {
    clientId.Some? && |MockPrefix| <= |clientId.value| && clientId.value[..|MockPrefix|] == MockPrefix
  }

  /** The first value of a query parameter, if present. */
  function QueryGet(query: seq<(string, string)>, name: string): Option<string> {
    if query == [] then None
    else if query[0].0 == name then Some(query[0].1)
    else QueryGet(query[1..], name)
  }

  /** The callback's anti-CSRF check: the `state` in the callback URL must
      equal the one stored in the connection cookie. */
  predicate StateMatches(cookie: Fields, location: Url) {
    StateKey in cookie && QueryGet(location.query, "state") == Some(cookie[StateKey])
  }

  /** The action. In mock mode it redirects to the callback carrying exactly
      `code` and `state`, with `state` stored under "oauth2:state" in the
      committed connection cookie; otherwise it delegates. */
  function GithubAction(clientId: Option<string>, connectionCookie: Fields, state: string,
                        authenticate: Response): (r: Response)
    ensures !IsMock(clientId) ==> r == authenticate
    ensures IsMock(clientId) ==>
      && r.Redirect? && r.location.path == CallbackPath
      && r.location.query == [("code", MockCode), ("state", state)]
      && r.setCookie.Some?
      && r.setCookie.value.data == connectionCookie[StateKey := state]
  {
    if IsMock(clientId) then
      var session := connectionCookie[StateKey := state];
      Redirect(Url(CallbackPath, [("code", MockCode), ("state", state)]), Some(Cookie(session, None)))
    else authenticate
  }

  /** The mock redirect passes the callback's state check, and a redirect
      whose state differs from the stored nonce would not. */
  lemma MockStateRoundTrip(clientId: Option<string>, cookie: Fields, state: string, forged: string,
                           authenticate: Response)
    requires IsMock(clientId)
    ensures var r := GithubAction(clientId, cookie, state, authenticate);
      && StateMatches(r.setCookie.value.data, r.location)
      && QueryGet(r.location.query, "code") == Some(MockCode)
      && (forged != state ==>
            !StateMatches(r.setCookie.value.data, Url(CallbackPath, [("code", MockCode), ("state", forged)])))
  {
    var query: seq<(string, string)> := [("code", MockCode), ("state", forged)];
    assert "code" != "state" by { assert "code"[0] != "state"[0]; }
    assert query[1..] == [("state", forged)];
    assert QueryGet(query, "state") == Some(forged);
  }
}

=== FILE: http.dfy ===
/**
 * Shared vocabulary of the request handlers: optional values, the form
 * submission a handler echoes back, cookie commits, redirects and thrown
 * responses. Handlers are pure functions from their inputs to a `Response`;
 * a response the framework would receive as a thrown exception is a value here.
 */
module Http {

  datatype Option<+T> = None | Some(value: T)

  /** Decoded form data or URL search parameters: one string per field name. */
  type Fields = map<string, string>

  /** A guard the handler awaits first: it either lets the request through
      with a value or throws a response that ends the handler. */
  datatype Gate<+T> = Pass(value: T) | Halt(response: Response)

  /** A validation issue as the form library reports it. `SchemaIssue` is an
      issue raised by a field schema whose message text is not part of this
      model; `CustomIssue` is one the handler adds with its own message.
      The empty path is the form-level path. */
  datatype Issue = SchemaIssue(path: string) | CustomIssue(path: string, message: string)

  /** The submission echoed to the client: the intent, the raw payload, the
      parsed value (absent when parsing failed or the handler cleared it)
      and the issues found. */
  datatype Submission = Submission(intent: string, payload: Fields, value: Option<Fields>, issues: seq<Issue>)

  datatype Status = Idle | Error

  /** A committed cookie session: its data and, when set, its expiry in
      milliseconds since the epoch. */
  datatype Cookie = Cookie(data: Fields, expires: Option<nat>)

  /** A redirect target: a path and its query parameters in order. */
  datatype Url = Url(path: string, query: seq<(string, string)>)

  datatype Response =
    | Submitted(code: nat, status: Status, submission: Submission)
    | EmptyJson
    | TwoFAStatus(isTwoFAEnabled: bool)
    | Redirect(location: Url, setCookie: Option<Cookie>)
    | Failure(code: nat, body: string)

  /** A handler's response together with the data it leaves behind: the
      record store, the password table, or whatever else it writes. */
  datatype Handled<S> = Handled(response: Response, state: S)

  /** The length JavaScript reports for a string: its UTF-16 code units,
      one for each character up to U+FFFF and two (a surrogate pair) for
      each character above it. */
  function Utf16Length(s: string): (n: nat)
    ensures |s| <= n <= 2 * |s|
    ensures (forall i :: 0 <= i < |s| ==> s[i] as int <= 0xFFFF) <==> n == |s|
  {
    if s == [] then 0 else (if s[0] as int > 0xFFFF then 2 else 1) + Utf16Length(s[1..])
  }

  const FormLevel: string := ""
  const IntentField: string := "__intent__"
  const SubmitIntent: string := "submit"

  /** The intent of a submission: the form library reads it from its
      reserved intent field and defaults to "submit" when it is absent. */
  function IntentOf(body: Fields): string {
    if IntentField in body then body[IntentField] else SubmitIntent
  }

  /** A plain redirect to a path, with no query and no cookie. */
  function RedirectTo(path: string): Response {
    Redirect(Url(path, []), None)
  }

  /** The entries of `fields` whose names are in `names`. */
  function Pick(fields: Fields, names: set<string>): (r: Fields)
    ensures r.Keys == fields.Keys * names
    ensures forall k :: k in r ==> r[k] == fields[k]
  {
    map k | k in fields && k in names :: fields[k]
  }

  /** True when the response carries a cookie to set. */
  predicate SetsCookie(r: Response) {
    r.Redirect? && r.setCookie.Some?
  }
}

=== FILE: login.dfy ===
/**
 * The login route as a decision function. The guards (anonymous-only,
 * CSRF, honeypot), the credential check, the username and password field
 * schemas and `safeRedirect` are foreign and come in as inputs; the cookie
 * session arrives already decoded as a map.
 */
module Login {
  import opened Http
  import AuthServer

  const UsernameField: string := "username"
  const PasswordField: string := "password"
  const RedirectToField: string := "redirectTo"
  const RememberField: string := "remember"

  /** The value a checked checkbox submits. */
  const CheckboxOn: string := "on"
  const InvalidCredentials: string := "Invalid username or password"

  datatype User = User(id: string)

  /** The login route's collaborators. `login` checks a username and
      password and answers the user or nothing; `usernameOk` and
      `passwordOk` are the field schemas; `userIdKey` is the cookie key
      under which the user id is stored. */
  datatype LoginDeps = LoginDeps(
    login: (string, string) -> Option<User>,
    safeRedirect: Option<string> -> string,
    userIdKey: string,
    usernameOk: string -> bool,
    passwordOk: string -> bool)

  /** The loader lets only anonymous requests through. */
  function LoginLoader(anonymous: Gate<()>): (r: Response)
    ensures anonymous.Halt? ==> r == anonymous.response
    ensures anonymous.Pass? ==> r == EmptyJson
  {
    match anonymous
    case Halt(response) => response
    case Pass(_) => EmptyJson
  }

  /** The object schema's issues in declaration order: a valid username, a
      valid password, an optional redirect string and an optional boolean
      remember flag. */
  function SchemaIssues(form: Fields, deps: LoginDeps): seq<Issue> {
    (if UsernameField in form && deps.usernameOk(form[UsernameField]) then [] else [SchemaIssue(UsernameField)])
    + (if PasswordField in form && deps.passwordOk(form[PasswordField]) then [] else [SchemaIssue(PasswordField)])
    + (if RememberField !in form || form[RememberField] == CheckboxOn then [] else [SchemaIssue(RememberField)])
  }

  function RedirectToOf(form: Fields): Option<string> {
    if RedirectToField in form then Some(form[RedirectToField]) else None
  }

  predicate Remember(form: Fields) {
    RememberField in form && form[RememberField] == CheckboxOn
  }

  /** The user the credential check answers, asked only for a submit
      intent whose fields passed the schema. */
  function Authenticate(form: Fields, deps: LoginDeps): Option<User> {
    if IntentOf(form) == SubmitIntent && SchemaIssues(form, deps) == [] then
      deps.login(form[UsernameField], form[PasswordField])
    else None
  }

  predicate GatesPass(anonymous: Gate<()>, csrf: Gate<()>, honeypot: Gate<()>) {
    anonymous.Pass? && csrf.Pass? && honeypot.Pass?
  }

  /** The action. Guards run first, in order; then the form is parsed, the
      password and the intent field are removed from the echoed payload
      (every other field stays), a non-submit intent
      answers idle, a failed submit answers 400, and a successful one stores
      the user id in the cookie session and redirects. The cookie expires
      thirty days after `now` when "remember me" was checked and is a
      browser-session cookie otherwise. */
  function LoginAction(anonymous: Gate<()>, csrf: Gate<()>, honeypot: Gate<()>, form: Fields,
                       cookie: Fields, deps: LoginDeps, now: nat): (r: Response)
    ensures anonymous.Halt? ==> r == anonymous.response
    ensures anonymous.Pass? && csrf.Halt? ==> r == csrf.response
    ensures anonymous.Pass? && csrf.Pass? && honeypot.Halt? ==> r == honeypot.response
    ensures GatesPass(anonymous, csrf, honeypot) && IntentOf(form) != SubmitIntent ==>
      r.Submitted? && r.code == 200 && r.status == Idle
    ensures GatesPass(anonymous, csrf, honeypot) && r.Submitted? ==>
      && PasswordField !in r.submission.payload && IntentField !in r.submission.payload
      && (forall k :: k in form && k != PasswordField && k != IntentField ==>
            k in r.submission.payload && r.submission.payload[k] == form[k])
      && (r.submission.value.Some? ==> PasswordField !in r.submission.value.value)
    ensures GatesPass(anonymous, csrf, honeypot) ==>
      (SetsCookie(r) <==> IntentOf(form) == SubmitIntent && SchemaIssues(form, deps) == []
                          && deps.login(form[UsernameField], form[PasswordField]).Some?)
    ensures GatesPass(anonymous, csrf, honeypot) && IntentOf(form) == SubmitIntent && !SetsCookie(r) ==>
      && r.Submitted? && r.code == 400 && r.status == Error
      && r.submission.issues ==
           (if SchemaIssues(form, deps) != [] then SchemaIssues(form, deps)
            else [CustomIssue(FormLevel, InvalidCredentials)])
    ensures GatesPass(anonymous, csrf, honeypot) && SetsCookie(r) ==>
      var user := deps.login(form[UsernameField], form[PasswordField]).value;
      && r.location == Url(deps.safeRedirect(RedirectToOf(form)), [])
      && r.setCookie.value.data == cookie[deps.userIdKey := user.id]
      && r.setCookie.value.expires ==
           (if Remember(form) then Some(now + AuthServer.SessionExpirationTime) else None)
  {
    if anonymous.Halt? then anonymous.response
    else if csrf.Halt? then csrf.response
    else if honeypot.Halt? then honeypot.response
    else
      var intent := IntentOf(form);
      var schema := SchemaIssues(form, deps);
      var user := Authenticate(form, deps);
      var issues :=
        if schema != [] then schema
        else if intent == SubmitIntent && user.None? then [CustomIssue(FormLevel, InvalidCredentials)]
        else [];
      var value := if issues == [] then Some(Pick(form, {UsernameField, RedirectToField, RememberField})) else None;
      var submission := Submission(intent, form - {PasswordField, IntentField}, value, issues);
      if intent != SubmitIntent then
        Submitted(200, Idle, submission)
      else if user.None? then
        Submitted(400, Error, submission)
      else
        var session := cookie[deps.userIdKey := user.value.id];
        var expires := if Remember(form) then Some(AuthServer.SessionExpirationDate(now)) else None;
        Redirect(Url(deps.safeRedirect(RedirectToOf(form)), []), Some(Cookie(session, expires)))
  }

  /** For a non-submit intent the credential check is never asked: any two
      credential checks give the same response. */
  lemma NonSubmitNeverLogsIn(anonymous: Gate<()>, csrf: Gate<()>, honeypot: Gate<()>, form: Fields,
                             cookie: Fields, deps: LoginDeps, other: (string, string) -> Option<User>, now: nat)
    requires IntentOf(form) != SubmitIntent
    ensures LoginAction(anonymous, csrf, honeypot, form, cookie, deps, now)
         == LoginAction(anonymous, csrf, honeypot, form, cookie, deps.(login := other), now)
    ensures GatesPass(anonymous, csrf, honeypot) ==>
      !SetsCookie(LoginAction(anonymous, csrf, honeypot, form, cookie, deps, now))
  {
  }

  /** Unknown credentials give one form-level issue with the generic
      message and a 400, and no cookie. The response is the same for every
      credential check that refuses, so it does not reveal whether the
      username exists. */
  lemma GenericFailure(form: Fields, cookie: Fields, deps: LoginDeps, other: (string, string) -> Option<User>, now: nat)
    requires IntentOf(form) == SubmitIntent && SchemaIssues(form, deps) == []
    requires deps.login(form[UsernameField], form[PasswordField]).None?
    requires other(form[UsernameField], form[PasswordField]).None?
    ensures var r := LoginAction(Pass(()), Pass(()), Pass(()), form, cookie, deps, now);
      && r.Submitted? && r.code == 400 && r.status == Error
      && r.submission.issues == [CustomIssue(FormLevel, InvalidCredentials)]
      && r == LoginAction(Pass(()), Pass(()), Pass(()), form, cookie, deps.(login := other), now)
  {
  }

  /** A remembered login's cookie expires exactly when a session created
      at the same moment does. */
  lemma RememberedCookieMatchesSession(form: Fields, cookie: Fields, deps: LoginDeps, now: nat)
    requires SetsCookie(LoginAction(Pass(()), Pass(()), Pass(()), form, cookie, deps, now))
    requires Remember(form)
    ensures LoginAction(Pass(()), Pass(()), Pass(()), form, cookie, deps, now).setCookie.value.expires
         == Some(AuthServer.SessionExpirationDate(now))
  {
  }
}

=== FILE: misc.dfy ===
/**
 * Small pure utilities: error-message extraction, the 400-throwing
 * invariant, header combining over lists of pairs, and image paths.
 * JavaScript values are modelled by `JsValue`; numbers are integers.
 */
module Misc {
  import opened Http

  /** A JavaScript value. An object lists every property the `in` operator
      sees on it, inherited ones included. */
  datatype JsValue =
    | Undefined
    | Null
    | Bool(b: bool)
    | Num(n: int)
    | Str(s: string)
    | Obj(props: map<string, JsValue>)
    | Func

  /** JavaScript truthiness. */
  predicate Truthy(v: JsValue) {
    match v
    case Undefined => false
    case Null => false
    case Bool(b) => b
    case Num(n) => n != 0
    case Str(s) => s != ""
    case Obj(_) => true
    case Func => true
  }

  const UnknownError: string := "Unknown Error"

  /** Best-effort message of a thrown value: a string is its own message,
      an object with a string `message` gives that message, and anything
      else, objects with a non-string `message` included, is "Unknown Error". */
  function GetErrorMessage(error: JsValue): (m: string)
    ensures error.Str? ==> m == error.s
    ensures error.Obj? && "message" in error.props && error.props["message"].Str? ==>
      m == error.props["message"].s
    ensures !error.Str? && !(error.Obj? && "message" in error.props && error.props["message"].Str?) ==>
      m == UnknownError
  {
    match error
    case Str(s) => s
    case Obj(props) =>
      if "message" in props && props["message"].Str? then props["message"].s else UnknownError
    case _ => UnknownError
  }

  /** An `Error` object as the runtime builds it: its `message` and `name`
      properties. */
  function ErrorObject(message: string): JsValue {
    Obj(map["message" := Str(message), "name" := Str("Error")])
  }

  /** The message of an error object built from any message is that message,
      and a falsy non-string value has no message. */
  lemma ErrorMessageCases(message: string, v: JsValue)
    ensures GetErrorMessage(ErrorObject(message)) == message
    ensures GetErrorMessage(Str(message)) == message
    ensures !Truthy(v) && !v.Str? ==> GetErrorMessage(v) == UnknownError
  {
  }

  /** The message argument: absent, a string, or a function producing one. */
  datatype Message = NoMessage | Text(s: string) | Thunk(f: () -> string)

  /** The `status` entry of the optional response init: not given, given as
      `undefined`, or given as a number. */
  datatype StatusInit = Unset | UndefinedStatus | Code(status: int)

  /** The errors the `Response` constructor raises for a bad init. */
  datatype JsError = RangeError | TypeError

  /** How a call of the invariant ends: it returns, it throws the response
      it built, or building that response itself throws. */
  datatype Invariant = Holds | Throws(response: Response) | Raises(error: JsError)

  const DefaultInvariantMessage: string := "An invariant failed, please provide a message to explain why."

  /** The status a thrown response gets: 400 unless the init supplies one,
      in which case it wins; an explicit `undefined` overrides 400 and the
      response then takes the default status 200. */
  function InvariantStatus(init: StatusInit): int {
    match init
    case Unset => 400
    case UndefinedStatus => 200
    case Code(n) => n
  }

  /** The conversion the `Response` constructor applies to `status` before
      checking it: a WebIDL `unsigned short`, that is the integer modulo
      65536 (always non-negative). */
  function UnsignedShort(n: int): (s: int)
    ensures 0 <= s < 65536
    ensures (n - s) % 65536 == 0
    ensures 0 <= n < 65536 ==> s == n
  {
    n % 65536
  }

  /** The statuses the `Response` constructor accepts. */
  predicate StatusInRange(status: int) {
    200 <= status <= 599
  }

  /** The statuses whose responses may not carry a body. */
  predicate NullBodyStatus(status: int) {
    status == 101 || status == 204 || status == 205 || status == 304
  }

  /** The body of a thrown response. */
  function InvariantBody(message: Message): string {
    match message
    case Thunk(f) => f()
    case Text(s) => if s != "" then s else DefaultInvariantMessage
    case NoMessage => DefaultInvariantMessage
  }

  /** Returns normally exactly when the condition is truthy. Otherwise it
      builds a response with a string body. The constructor first reduces
      the status to an unsigned short; a result outside 200..599 makes it
      raise a RangeError, one that forbids a body makes it raise a
      TypeError, and any other gives the thrown response. */
  function InvariantResponse(condition: JsValue, message: Message, init: StatusInit): (r: Invariant)
    ensures r.Holds? <==> Truthy(condition)
    ensures r == Raises(RangeError) <==>
      !Truthy(condition) && !StatusInRange(UnsignedShort(InvariantStatus(init)))
    ensures r == Raises(TypeError) <==>
      && !Truthy(condition) && StatusInRange(UnsignedShort(InvariantStatus(init)))
      && NullBodyStatus(UnsignedShort(InvariantStatus(init)))
    ensures r.Throws? ==>
      r.response.Failure? && StatusInRange(r.response.code) && !NullBodyStatus(r.response.code)
    ensures !Truthy(condition) && init.Unset? ==> r.Throws? && r.response.code == 400
    ensures r.Throws? && init.Code? ==> r.response.code == UnsignedShort(init.status)
    ensures r.Throws? && init.Code? && 0 <= init.status < 65536 ==> r.response.code == init.status
    ensures r.Throws? && message.Thunk? ==> r.response.body == message.f()
    ensures r.Throws? && message.Text? && message.s != "" ==> r.response.body == message.s
    ensures r.Throws? && (message.NoMessage? || message == Text("")) ==> r.response.body == DefaultInvariantMessage
  {
    if Truthy(condition) then Holds
    else
      var status := UnsignedShort(InvariantStatus(init));
      var body := InvariantBody(message);
      if !StatusInRange(status) then Raises(RangeError)
      else if NullBodyStatus(status) then Raises(TypeError)
      else Throws(Failure(status, body))
  }

  /** Without an explicit status the invariant never makes the constructor
      raise: a falsy condition throws a 400 response, or a 200 one when the
      status is given as `undefined`. An unsigned short outside 200..599 is
      refused, and a status that wraps modulo 65536 is judged by its wrapped
      value. */
  lemma InvariantStatusCases(condition: JsValue, message: Message, n: int)
    requires !Truthy(condition)
    ensures InvariantResponse(condition, message, Unset) == Throws(Failure(400, InvariantBody(message)))
    ensures InvariantResponse(condition, message, UndefinedStatus) == Throws(Failure(200, InvariantBody(message)))
    ensures (0 <= n < 200 || 600 <= n < 65536) ==> InvariantResponse(condition, message, Code(n)) == Raises(RangeError)
    ensures n == -1 ==> InvariantResponse(condition, message, Code(n)) == Raises(RangeError)
    ensures n == 204 ==> InvariantResponse(condition, message, Code(n)) == Raises(TypeError)
    ensures n == 65736 ==> InvariantResponse(condition, message, Code(n)) == Throws(Failure(200, InvariantBody(message)))
    ensures n == 65740 ==> InvariantResponse(condition, message, Code(n)) == Raises(TypeError)
  {
  }

  /** A header list: (name, value) entries in order. */
  type Header = (string, string)

  /** The entries of one argument; an absent argument has none. */
  function Entries(header: Option<seq<Header>>): seq<Header> {
    match header
    case None => []
    case Some(h) => h
  }

  /** The reference meaning of combining: the entries of every present
      argument, concatenated in argument order. */
  function Concat(headers: seq<Option<seq<Header>>>): seq<Header> {
    if headers == [] then [] else Entries(headers[0]) + Concat(headers[1..])
  }

  /** Combining distributes over splitting the argument list. */
  lemma {:induction false} ConcatAppend(a: seq<Option<seq<Header>>>, b: seq<Option<seq<Header>>>)
    ensures Concat(a + b) == Concat(a) + Concat(b)
    decreases |a|
  {
    if a == [] {
      assert a + b == b;
    } else {
      assert (a + b)[0] == a[0];
      assert (a + b)[1..] == a[1..] + b;
      ConcatAppend(a[1..], b);
    }
  }

  /** Every entry of every present argument appears in the combination:
      appending never drops or replaces an entry. */
  lemma {:induction false} ConcatKeepsEntries(headers: seq<Option<seq<Header>>>, i: nat, j: nat)
    requires i < |headers| && headers[i].Some? && j < |headers[i].value|
    ensures headers[i].value[j] in Concat(headers)
    decreases i
  {
    if i == 0 {
      assert Concat(headers) == headers[0].value + Concat(headers[1..]);
      assert Concat(headers)[j] == headers[i].value[j];
    } else {
      ConcatKeepsEntries(headers[1..], i - 1, j);
      assert Concat(headers) == Entries(headers[0]) + Concat(headers[1..]);
    }
  }

  /** Combines header lists: skips absent arguments and appends every entry
      of the others, in argument order, never replacing an earlier one. */
  method CombineHeaders(headers: seq<Option<seq<Header>>>) returns (combined: seq<Header>)
    ensures combined == Concat(headers)
    ensures forall i, j :: 0 <= i < |headers| && headers[i].Some? && 0 <= j < |headers[i].value| ==>
      headers[i].value[j] in combined
  {
    combined := [];
    var n := 0;
    while n < |headers|
      invariant n <= |headers|
      invariant combined == Concat(headers[..n])
    {
      var header := headers[n];
      if header.Some? {
        var k := 0;
        while k < |header.value|
          invariant k <= |header.value|
          invariant combined == Concat(headers[..n]) + header.value[..k]
        {
          combined := combined + [header.value[k]];
          k := k + 1;
        }
      }
      ConcatAppend(headers[..n], [header]);
      assert headers[..n + 1] == headers[..n] + [header];
      assert Concat([header]) == Entries(header) + Concat([]);
      n := n + 1;
    }
    assert headers[..n] == headers;
    forall i, j | 0 <= i < |headers| && headers[i].Some? && 0 <= j < |headers[i].value|
      ensures headers[i].value[j] in combined
    {
      ConcatKeepsEntries(headers, i, j);
    }
  }

  const UserImagesPrefix: string := "/resources/user-images/"
  const NoteImagesPrefix: string := "/resources/note-images/"

  /** The source of a user's image: the image route for a non-empty id, and
      the bundled fallback image (`fallback`) for a missing or empty one. */
  function GetUserImgSrc(imageId: Option<string>, fallback: string): (src: string)
    ensures imageId.Some? && imageId.value != "" ==>
      |src| > |UserImagesPrefix| && src[..|UserImagesPrefix|] == UserImagesPrefix
      && src[|UserImagesPrefix|..] == imageId.value
    ensures imageId.None? || imageId.value == "" ==> src == fallback
  {
    if imageId.Some? && imageId.value != "" then UserImagesPrefix + imageId.value else fallback
  }

  /** The source of a note's image: always the image route. */
  function GetNoteImgSrc(imageId: string): (src: string)
    ensures |src| == |NoteImagesPrefix| + |imageId|
    ensures src[..|NoteImagesPrefix|] == NoteImagesPrefix && src[|NoteImagesPrefix|..] == imageId
  {
    NoteImagesPrefix + imageId
  }

  /** The image id a source path names under a route prefix, if any: the
      inverse of building the path. */
  function ImageIdOf(src: string, prefix: string): Option<string> {
    if |prefix| <= |src| && src[..|prefix|] == prefix then Some(src[|prefix|..]) else None
  }

  /** The paths round-trip: the id is recovered from every note path and
      from every user path built from a non-empty id. */
  lemma ImagePathsRoundTrip(imageId: string, fallback: string)
    ensures ImageIdOf(GetNoteImgSrc(imageId), NoteImagesPrefix) == Some(imageId)
    ensures imageId != "" ==> ImageIdOf(GetUserImgSrc(Some(imageId), fallback), UserImagesPrefix) == Some(imageId)
  {
  }

  /** Different note ids give different paths. */
  lemma NoteImgSrcInjective(a: string, b: string)
    requires GetNoteImgSrc(a) == GetNoteImgSrc(b)
    ensures a == b
  {
  }
}

=== FILE: password_create.dfy ===
/**
 * The "create password" settings route, for accounts that have none yet
 * (accounts made through an external provider). The password table is a
 * map from user id to the stored hash; hashing is a foreign function.
 */
module PasswordCreate {
  import opened Http

  const NewPasswordField: string := "newPassword"
  const ConfirmField: string := "confirmNewPassword"
  const MustMatch: string := "The passwords must match"
  const PasswordPath: string := "/settings/profile/password"
  const ProfilePath: string := "/settings/profile"

  /** The password table: user id to password hash, at most one per user. */
  type Passwords = map<string, string>

  /** The guard shared by loader and action: a user who already has a
      password is sent to the change-password page. */
  function RequireNoPassword(passwords: Passwords, userId: string): (g: Gate<()>)
    ensures g.Halt? <==> userId in passwords
    ensures g.Halt? ==> g.response == RedirectTo(PasswordPath)
  {
    if userId in passwords then Halt(RedirectTo(PasswordPath)) else Pass(())
  }

  function CreatePasswordLoader(auth: Gate<string>, passwords: Passwords): (r: Response)
    ensures auth.Halt? ==> r == auth.response
    ensures auth.Pass? && auth.value in passwords ==> r == RedirectTo(PasswordPath)
    ensures auth.Pass? && auth.value !in passwords ==> r == EmptyJson
  {
    match auth
    case Halt(response) => response
    case Pass(userId) =>
      match RequireNoPassword(passwords, userId)
      case Halt(response) => response
      case Pass(_) => EmptyJson
  }

  /** Both fields are present: the object schema did not abort, so the
      refinement comparing them runs, even when an entry failed the
      password checks (those checks only mark the result dirty). */
  predicate BothPresent(form: Fields) {
    NewPasswordField in form && ConfirmField in form
  }

  /** The form's issues: the password schema's, field by field, then the
      refinement's "The passwords must match" on the confirmation whenever
      both entries are present and differ. */
  function Issues(form: Fields, passwordOk: string -> bool): (issues: seq<Issue>)
    ensures issues == [] <==> Valid(form, passwordOk)
    ensures CustomIssue(ConfirmField, MustMatch) in issues <==>
      BothPresent(form) && form[ConfirmField] != form[NewPasswordField]
    ensures SchemaIssue(NewPasswordField) in issues <==>
      !(NewPasswordField in form && passwordOk(form[NewPasswordField]))
  {
    var schema :=
      (if NewPasswordField in form && passwordOk(form[NewPasswordField]) then [] else [SchemaIssue(NewPasswordField)])
      + (if ConfirmField in form && passwordOk(form[ConfirmField]) then [] else [SchemaIssue(ConfirmField)]);
    if BothPresent(form) && form[ConfirmField] != form[NewPasswordField] then
      schema + [CustomIssue(ConfirmField, MustMatch)]
    else schema
  }

  /** The independent statement of a valid submission: both entries pass
      the password schema and are equal. */
  predicate Valid(form: Fields, passwordOk: string -> bool) {
    && NewPasswordField in form && ConfirmField in form
    && passwordOk(form[NewPasswordField])
    && form[ConfirmField] == form[NewPasswordField]
  }

  /** The action. The user id guard and the no-password guard run before the
      form is read. After parsing, the payload is always cleared; a
      non-submit intent also clears the value and answers idle; an invalid
      submit answers 400; a valid one gives the user exactly one password,
      the hash of the new password, and redirects to the profile. */
  function CreatePasswordAction(auth: Gate<string>, passwords: Passwords, form: Fields,
                                hash: string -> string, passwordOk: string -> bool): (r: Handled<Passwords>)
    ensures auth.Halt? ==> r == Handled(auth.response, passwords)
    ensures auth.Pass? && auth.value in passwords ==> r == Handled(RedirectTo(PasswordPath), passwords)
    ensures r.response.Submitted? && auth.Pass? ==> r.response.submission.payload == map[]
    ensures auth.Pass? && auth.value !in passwords && r.response.Submitted? ==>
      r.response.submission.issues == Issues(form, passwordOk)
    ensures auth.Pass? && auth.value !in passwords && IntentOf(form) != SubmitIntent ==>
      && r.state == passwords
      && r.response.Submitted? && r.response.code == 200 && r.response.status == Idle
      && r.response.submission.value == None
    ensures auth.Pass? && auth.value !in passwords && IntentOf(form) == SubmitIntent && !Valid(form, passwordOk) ==>
      && r.state == passwords
      && r.response.Submitted? && r.response.code == 400 && r.response.status == Error
    ensures auth.Pass? && auth.value !in passwords && IntentOf(form) == SubmitIntent && Valid(form, passwordOk) ==>
      && r.response == RedirectTo(ProfilePath)
      && r.state == passwords[auth.value := hash(form[NewPasswordField])]
    ensures r.state != passwords ==> auth.Pass? && auth.value !in passwords && r.state.Keys == passwords.Keys + {auth.value}
  {
    match auth
    case Halt(response) => Handled(response, passwords)
    case Pass(userId) =>
      match RequireNoPassword(passwords, userId)
      case Halt(response) => Handled(response, passwords)
      case Pass(_) =>
        var intent := IntentOf(form);
        var issues := Issues(form, passwordOk);
        var value := if issues == [] then Some(Pick(form, {NewPasswordField, ConfirmField})) else None;
        if intent != SubmitIntent then
          Handled(Submitted(200, Idle, Submission(intent, map[], None, issues)), passwords)
        else if issues != [] then
          Handled(Submitted(400, Error, Submission(intent, map[], value, issues)), passwords)
        else
          Handled(RedirectTo(ProfilePath), passwords[userId := hash(form[NewPasswordField])])
  }

  /** Two entries that differ always get "The passwords must match" on the
      confirmation, whether or not they pass the password checks; when both
      pass, it is the only issue. */
  lemma MismatchIssue(form: Fields, passwordOk: string -> bool)
    requires BothPresent(form)
    requires form[NewPasswordField] != form[ConfirmField]
    ensures CustomIssue(ConfirmField, MustMatch) in Issues(form, passwordOk)
    ensures passwordOk(form[NewPasswordField]) && passwordOk(form[ConfirmField]) ==>
      Issues(form, passwordOk) == [CustomIssue(ConfirmField, MustMatch)]
  {
  }

  /** At most one create per user: after a successful create, a second
      request by the same user, whatever its form, meets the guard and
      writes nothing. */
  lemma AtMostOneCreate(userId: string, passwords: Passwords, form1: Fields, form2: Fields,
                          hash: string -> string, passwordOk: string -> bool)
    requires userId !in passwords
    requires IntentOf(form1) == SubmitIntent && Valid(form1, passwordOk)
    ensures var after := CreatePasswordAction(Pass(userId), passwords, form1, hash, passwordOk).state;
      && userId in after
      && CreatePasswordAction(Pass(userId), after, form2, hash, passwordOk) == Handled(RedirectTo(PasswordPath), after)
      && CreatePasswordLoader(Pass(userId), after) == RedirectTo(PasswordPath)
  {
  }
}

=== FILE: signup.dfy ===
/**
 * The signup stub's honeypot: a hidden `name` field that people leave
 * empty and bots fill in. Only that field is inspected.
 */
module Signup {
  import opened Http
  import Misc

  const HoneypotField: string := "name"
  const NotSubmittedProperly: string := "Form not submitted properly"

  /** The value `formData.get` answers for a field: the string, or null. */
  function FieldValue(form: Fields, name: string): Misc.JsValue {
    if name in form then Misc.Str(form[name]) else Misc.Null
  }

  /** A filled-in `name` field throws a 400 with "Form not submitted
      properly"; an absent or empty one redirects home, since the empty
      string is falsy. */
  function SignupAction(form: Fields): (r: Response)
    ensures HoneypotField in form && form[HoneypotField] != "" ==> r == Failure(400, NotSubmittedProperly)
    ensures HoneypotField !in form || form[HoneypotField] == "" ==> r == RedirectTo("/")
  {
    var filled := Misc.Truthy(FieldValue(form, HoneypotField));
    match Misc.InvariantResponse(Misc.Bool(!filled), Misc.Text(NotSubmittedProperly), Misc.Unset)
    case Throws(thrown) => thrown
    case Holds => RedirectTo("/")
    case Raises(_) => assert false; RedirectTo("/")
  }

  /** Only the honeypot field decides: two forms that agree on `name` get
      the same response, whatever their email or other fields hold. */
  lemma OnlyNameInspected(f1: Fields, f2: Fields)
    requires (HoneypotField in f1) == (HoneypotField in f2)
    requires HoneypotField in f1 ==> f1[HoneypotField] == f2[HoneypotField]
    ensures SignupAction(f1) == SignupAction(f2)
  {
  }
}

=== FILE: two_factor.dfy ===
/**
 * The two-factor settings page: the loader reports whether the user has a
 * persistent 2FA record, and the action issues a fresh enrolment challenge
 * by upserting a record keyed by (user id, verify type) that expires ten
 * minutes later.
 *
 * The code generator of RFC 6238 is not modelled: its output (a code and
 * the config it was made with) is an input of the action.
 */
module TwoFactor {
  import opened Http
  import opened VerificationStore

  /** The type of the persistent 2FA record. */
  const TwoFAType: string := "2fa"
  const TenMinutes: nat := 1000 * 60 * 10
  const VerifyPath: string := "/settings/profile/two-factor/verify"

  /** What the TOTP generator returns: the current code and its config. */
  datatype Generated = Generated(otp: string, config: TotpConfig)

  /** The loader: once the user is known, 2FA counts as enabled exactly when
      a "2fa" record exists for that user; the lookup has no expiry filter. */
  function TwoFALoader(auth: Gate<string>, store: Store): (r: Response)
    ensures auth.Halt? ==> r == auth.response
    ensures auth.Pass? ==> r.TwoFAStatus? && (r.isTwoFAEnabled <==> Exists(store, auth.value, TwoFAType))
  {
    match auth
    case Halt(response) => response
    case Pass(userId) => TwoFAStatus(Exists(store, userId, TwoFAType))
  }

  /** The record the action writes: the generated config, the verify type,
      the user as target and an expiry ten minutes after `now`. */
  function EnrolmentRecord(userId: string, verifyType: string, generated: Generated, now: nat): Verification {
    Verification(userId, verifyType, generated.config, Some(now + TenMinutes))
  }

  /** The action. The user id guard runs first, then the CSRF check; a
      failure of either ends the request with nothing written. Otherwise
      exactly one record exists afterwards under (user id, `verifyType`),
      holding the generated config but not the code, expiring 600000 ms
      after `now`; every other record is unchanged and the response
      redirects to the verify page. */
  function EnableTwoFA(auth: Gate<string>, csrf: Gate<()>, store: Store, verifyType: string,
                       generated: Generated, now: nat): (r: Handled<Store>)
    ensures auth.Halt? ==> r == Handled(auth.response, store)
    ensures auth.Pass? && csrf.Halt? ==> r == Handled(csrf.response, store)
    ensures auth.Pass? && csrf.Pass? ==>
      && r.response == RedirectTo(VerifyPath)
      && var k := Key(auth.value, verifyType);
         && k in r.state
         && r.state[k].config == generated.config
         && r.state[k].target == auth.value && r.state[k].kind == verifyType
         && r.state[k].expiresAt == Some(now + 600000)
         && r.state.Keys == store.Keys + {k}
         && (forall k' :: k' in store && k' != k ==> r.state[k'] == store[k'])
    ensures WellKeyed(store) ==> WellKeyed(r.state)
  {
    match auth
    case Halt(response) => Handled(response, store)
    case Pass(userId) =>
      match csrf
      case Halt(response) => Handled(response, store)
      case Pass(_) =>
        Handled(RedirectTo(VerifyPath), Upsert(store, EnrolmentRecord(userId, verifyType, generated, now)))
  }

  /** The create and update payloads are the same, so the result does not
      depend on whether or what record existed before: two stores that
      agree away from the enrolment key end up identical. */
  lemma EnableIgnoresPriorRecord(userId: string, csrf: Gate<()>, s1: Store, s2: Store, verifyType: string,
                                 generated: Generated, now: nat)
    requires csrf.Pass?
    requires s1 - {Key(userId, verifyType)} == s2 - {Key(userId, verifyType)}
    ensures EnableTwoFA(Pass(userId), csrf, s1, verifyType, generated, now)
         == EnableTwoFA(Pass(userId), csrf, s2, verifyType, generated, now)
  {
    var k := Key(userId, verifyType);
    var r1 := EnableTwoFA(Pass(userId), csrf, s1, verifyType, generated, now).state;
    var r2 := EnableTwoFA(Pass(userId), csrf, s2, verifyType, generated, now).state;
    forall k' | k' in r1
      ensures k' in r2 && r1[k'] == r2[k']
    {
      if k' != k {
        assert k' in s1 - {k};
      }
    }
    forall k' | k' in r2
      ensures k' in r1
    {
      if k' != k {
        assert k' in s2 - {k};
      }
    }
    assert r1 == r2;
  }

  /** The generated code itself is never stored: two generations that differ
      only in their code leave the same store. */
  lemma EnableDropsOtp(auth: Gate<string>, csrf: Gate<()>, store: Store, verifyType: string,
                       config: TotpConfig, otp1: string, otp2: string, now: nat)
    ensures EnableTwoFA(auth, csrf, store, verifyType, Generated(otp1, config), now)
         == EnableTwoFA(auth, csrf, store, verifyType, Generated(otp2, config), now)
  {
  }

  /** The enrolment record is a challenge, not enrolment: it is live until
      ten minutes have passed and expired from then on, and the loader's
      "2fa" check is unaffected by it unless the verify type is "2fa". */
  lemma EnrolmentChallengeLifetime(userId: string, csrf: Gate<()>, store: Store, verifyType: string,
                                   generated: Generated, now: nat, t: nat)
    requires csrf.Pass?
    ensures var s := EnableTwoFA(Pass(userId), csrf, store, verifyType, generated, now).state;
      && (FindLive(s, userId, verifyType, t).Some? <==> t < now + TenMinutes)
      && (verifyType != TwoFAType ==>
            TwoFALoader(Pass(userId), s) == TwoFALoader(Pass(userId), store))
  {
  }

  /** The loader's check ignores expiry: an expired "2fa" record still
      reports 2FA as enabled, although the expiry-filtered lookup misses it. */
  lemma EnabledIgnoresExpiry(userId: string, store: Store, now: nat)
    requires Key(userId, TwoFAType) in store
    requires !Live(store[Key(userId, TwoFAType)], now)
    ensures TwoFALoader(Pass(userId), store) == TwoFAStatus(true)
    ensures FindLive(store, userId, TwoFAType, now).None?
  {
  }
}

=== FILE: verification_store.dfy ===
/**
 * The table of verification records, keyed by the pair (target, type).
 * A record holds the parameters of a time-based one-time password
 * (section 4 of RFC 6238) and an optional expiry in milliseconds.
 * The database is replaced by an immutable map; every write returns a new map.
 */
module VerificationStore {
  import opened Http

  /** The TOTP parameters kept with a record; the one-time code itself is
      never stored. */
  datatype TotpConfig = TotpConfig(secret: string, algorithm: string, digits: nat, period: nat, charSet: string)

  /** The composite unique key. `kind` is the record's `type` column. */
  datatype Key = Key(target: string, kind: string)

  datatype Verification = Verification(target: string, kind: string, config: TotpConfig, expiresAt: Option<nat>)

  type Store = map<Key, Verification>

  function KeyOf(v: Verification): Key {
    Key(v.target, v.kind)
  }

  /** Every record sits under the key made of its own target and type. */
  predicate WellKeyed(s: Store) {
    forall k :: k in s ==> KeyOf(s[k]) == k
  }

  /** A record is live at `now` when it never expires or expires strictly
      after `now`; a record whose expiry equals `now` has expired. */
  predicate Live(v: Verification, now: nat) {
    v.expiresAt.None? || v.expiresAt.value > now
  }

  /** Looks up the record for (target, kind) with the expiry filter
      "expiresAt > now OR expiresAt IS NULL" and returns its TOTP config. */
  function FindLive(s: Store, target: string, kind: string, now: nat): (r: Option<TotpConfig>)
    ensures r.Some? <==> Key(target, kind) in s && Live(s[Key(target, kind)], now)
    ensures r.Some? ==> r.value == s[Key(target, kind)].config
  {
    var k := Key(target, kind);
    if k in s && Live(s[k], now) then Some(s[k].config) else None
  }

  /** Looks up the record for (target, kind) with no expiry filter. */
  predicate Exists(s: Store, target: string, kind: string) {
    Key(target, kind) in s
  }

  /** Creates or replaces the record under its own key. */
  function Upsert(s: Store, v: Verification): (s': Store)
    ensures KeyOf(v) in s' && s'[KeyOf(v)] == v
    ensures s'.Keys == s.Keys + {KeyOf(v)}
    ensures forall k :: k in s && k != KeyOf(v) ==> s'[k] == s[k]
    ensures WellKeyed(s) ==> WellKeyed(s')
  {
    s[KeyOf(v) := v]
  }

  /** Removes the record for (target, kind); all other records stay. */
  function Delete(s: Store, target: string, kind: string): (s': Store)
    ensures Key(target, kind) !in s'
    ensures s'.Keys == s.Keys - {Key(target, kind)}
    ensures forall k :: k in s' ==> s'[k] == s[k]
    ensures WellKeyed(s) ==> WellKeyed(s')
  {
    s - {Key(target, kind)}
  }

  /** The lookup by key agrees with a scan of all records for one whose own
      target and type match and which is live: on a well-keyed store the
      keyed query and the filtered query find the same thing. */
  lemma FindLiveMatchesScan(s: Store, target: string, kind: string, now: nat)
    requires WellKeyed(s)
    ensures FindLive(s, target, kind, now).Some? <==>
      exists k :: k in s && s[k].target == target && s[k].kind == kind && Live(s[k], now)
  {
  }

  /** Expiry is permanent: a record that is not live at `now` is not live
      at any later time, so a lookup that misses stays missed. */
  lemma ExpiryIsPermanent(s: Store, target: string, kind: string, now: nat, later: nat)
    requires now <= later
    requires FindLive(s, target, kind, now).None?
    ensures FindLive(s, target, kind, later).None?
  {
  }

  /** The expiry boundary: a record expiring exactly at `now` is not found,
      one expiring a millisecond later is, and one without expiry always is. */
  lemma ExpiryBoundary(s: Store, target: string, kind: string, now: nat)
    requires Key(target, kind) in s
    ensures s[Key(target, kind)].expiresAt == Some(now) ==> FindLive(s, target, kind, now).None?
    ensures s[Key(target, kind)].expiresAt == Some(now + 1) ==> FindLive(s, target, kind, now).Some?
    ensures s[Key(target, kind)].expiresAt.None? ==> FindLive(s, target, kind, now).Some?
  {
  }
}

=== FILE: verify.dfy ===
/**
 * The one-time-code check behind the verify route: the request schema, the
 * lookup of a live record for (target, type), the TOTP check, and on success
 * the deletion of exactly that record and the onboarding email written into
 * the verification cookie.
 *
 * The TOTP algorithm of RFC 6238 is not modelled: `totp(code, config)` is the
 * library's verdict on a code, passed in as an uninterpreted predicate.
 */
module Verify {
  import opened Http
  import opened VerificationStore

  const CodeParam: string := "code"
  const TargetParam: string := "target"
  const RedirectToParam: string := "redirectTo"
  const TypeParam: string := "type"

  /** The only verification type the schema accepts. */
  const OnboardingType: string := "onboarding"
  const CodeLength: nat := 6
  const InvalidCode: string := "Invalid code"
  const OnboardingPath: string := "/onboarding"

  /** The code's shape check: a string whose JavaScript length, counted in
      UTF-16 code units, is exactly six. */
  predicate CodeShapeOk(body: Fields) {
    CodeParam in body && Utf16Length(body[CodeParam]) == CodeLength
  }

  /** Whether the object schema aborts. A missing field or a type outside
      the enum aborts it; a code of the wrong length only marks it dirty,
      and the refinement after it still runs. */
  predicate SchemaAborts(body: Fields) {
    || CodeParam !in body || TargetParam !in body || TypeParam !in body
    || body[TypeParam] != OnboardingType
  }

  /** The issues of the object schema, one per failing field in the order
      the schema declares them: `code` must be a string of exactly six
      characters, `target` a string, `type` one of the accepted types;
      `redirectTo` is an optional string and never fails. */
  function SchemaIssues(body: Fields): seq<Issue> {
    (if CodeShapeOk(body) then [] else [SchemaIssue(CodeParam)])
    + (if TargetParam in body then [] else [SchemaIssue(TargetParam)])
    + (if TypeParam in body && body[TypeParam] == OnboardingType then [] else [SchemaIssue(TypeParam)])
  }

  /** The store's verdict on a submission: a record exists under exactly
      (target, type), it is live at `now`, and the TOTP check accepts the
      code against its config. */
  predicate RecordAccepts(body: Fields, store: Store, now: nat, totp: (string, TotpConfig) -> bool)
    requires CodeParam in body && TargetParam in body && TypeParam in body
  {
    var k := Key(body[TargetParam], body[TypeParam]);
    k in store && Live(store[k], now) && totp(body[CodeParam], store[k].config)
  }

  /** All issues of a submission: the schema's, then the refinement's. The
      refinement reads the store whenever the schema did not abort, so also
      after a code of the wrong length; a missing or expired record and a
      rejected code all add the same single issue on `code`. */
  function Issues(body: Fields, store: Store, now: nat, totp: (string, TotpConfig) -> bool): (issues: seq<Issue>)
    ensures SchemaAborts(body) ==> issues == SchemaIssues(body)
    ensures |issues| >= |SchemaIssues(body)| && issues[..|SchemaIssues(body)|] == SchemaIssues(body)
    ensures CustomIssue(CodeParam, InvalidCode) in issues <==>
      !SchemaAborts(body) && !RecordAccepts(body, store, now, totp)
    ensures issues == [] <==> CodeAccepted(body, store, now, totp)
  {
    var schema := SchemaIssues(body);
    if SchemaAborts(body) then schema
    else
      match FindLive(store, body[TargetParam], body[TypeParam], now)
      case None => schema + [CustomIssue(CodeParam, InvalidCode)]
      case Some(config) =>
        if totp(body[CodeParam], config) then schema else schema + [CustomIssue(CodeParam, InvalidCode)]
  }

  /** The independent statement of when a code is accepted: every field is
      well formed, a record exists under exactly (target, type), it is live
      at `now`, and the TOTP check accepts the code against its config. */
  predicate CodeAccepted(body: Fields, store: Store, now: nat, totp: (string, TotpConfig) -> bool) {
    && CodeParam in body && Utf16Length(body[CodeParam]) == CodeLength
    && TargetParam in body
    && TypeParam in body && body[TypeParam] == OnboardingType
    && var k := Key(body[TargetParam], body[TypeParam]);
       k in store && Live(store[k], now) && totp(body[CodeParam], store[k].config)
  }

  /** Validates a submission of the verify form or link. A non-submit intent
      answers idle; a submission with issues answers 400; a valid one deletes
      the record it used, stores the target as the onboarding email in the
      verification cookie (under `emailKey`) and redirects to onboarding,
      whatever `redirectTo` says. */
  function ValidateRequest(body: Fields, store: Store, cookie: Fields, now: nat,
                           totp: (string, TotpConfig) -> bool, emailKey: string): (r: Handled<Store>)
    ensures IntentOf(body) != SubmitIntent ==>
      r.state == store && r.response.Submitted? && r.response.code == 200 && r.response.status == Idle
    ensures IntentOf(body) == SubmitIntent && !CodeAccepted(body, store, now, totp) ==>
      && r.state == store
      && r.response.Submitted? && r.response.code == 400 && r.response.status == Error
      && r.response.submission.issues != []
    ensures IntentOf(body) == SubmitIntent && CodeAccepted(body, store, now, totp) ==>
      && Key(body[TargetParam], body[TypeParam]) in store
      && r.state == store - {Key(body[TargetParam], body[TypeParam])}
      && r.response == Redirect(Url(OnboardingPath, []), Some(Cookie(cookie[emailKey := body[TargetParam]], None)))
    ensures SetsCookie(r.response) <==> IntentOf(body) == SubmitIntent && CodeAccepted(body, store, now, totp)
    ensures r.response.Submitted? ==>
      && r.response.submission.issues == Issues(body, store, now, totp)
      && IntentField !in r.response.submission.payload
      && forall k :: k in body && k != IntentField ==>
           k in r.response.submission.payload && r.response.submission.payload[k] == body[k]
  {
    var intent := IntentOf(body);
    var issues := Issues(body, store, now, totp);
    var value := if issues == [] then Some(Pick(body, {CodeParam, TargetParam, RedirectToParam, TypeParam})) else None;
    var submission := Submission(intent, body - {IntentField}, value, issues);
    if intent != SubmitIntent then
      Handled(Submitted(200, Idle, submission), store)
    else if issues != [] then
      Handled(Submitted(400, Error, submission), store)
    else
      var target := body[TargetParam];
      var verifySession := cookie[emailKey := target];
      Handled(Redirect(Url(OnboardingPath, []), Some(Cookie(verifySession, None))),
              Delete(store, target, body[TypeParam]))
  }

  /** The loader: without a `code` parameter it answers idle with the
      parameters echoed back and no issues, touching nothing; otherwise it
      validates the parameters like a submission. */
  function VerifyLoader(params: Fields, store: Store, cookie: Fields, now: nat,
                        totp: (string, TotpConfig) -> bool, emailKey: string): (r: Handled<Store>)
    ensures CodeParam !in params ==>
      r == Handled(Submitted(200, Idle, Submission("", params, None, [])), store)
    ensures CodeParam in params ==> r == ValidateRequest(params, store, cookie, now, totp, emailKey)
  {
    if CodeParam !in params then
      Handled(Submitted(200, Idle, Submission("", params, None, [])), store)
    else
      ValidateRequest(params, store, cookie, now, totp, emailKey)
  }

  /** The action: the CSRF check runs first and a failure ends the request
      with nothing changed; otherwise the form is validated. */
  function VerifyAction(csrf: Gate<()>, form: Fields, store: Store, cookie: Fields, now: nat,
                        totp: (string, TotpConfig) -> bool, emailKey: string): (r: Handled<Store>)
    ensures csrf.Halt? ==> r == Handled(csrf.response, store)
    ensures csrf.Pass? ==> r == ValidateRequest(form, store, cookie, now, totp, emailKey)
  {
    match csrf
    case Halt(response) => Handled(response, store)
    case Pass(_) => ValidateRequest(form, store, cookie, now, totp, emailKey)
  }

  /** A code whose length is not six is always refused on submit: the
      answer is 400 with the shape issue on `code` first, no record is
      deleted and no cookie is set, whatever the store and the TOTP checker
      say. */
  lemma WrongLengthAlwaysRefused(body: Fields, store: Store, cookie: Fields, now: nat,
                                 totp: (string, TotpConfig) -> bool, emailKey: string)
    requires CodeParam in body && Utf16Length(body[CodeParam]) != CodeLength
    requires IntentOf(body) == SubmitIntent
    ensures var r := ValidateRequest(body, store, cookie, now, totp, emailKey);
      && r.state == store && !SetsCookie(r.response)
      && r.response.Submitted? && r.response.code == 400
      && |r.response.submission.issues| > 0 && r.response.submission.issues[0] == SchemaIssue(CodeParam)
  {
  }

  /** A code of the wrong length still reaches the store: with a valid
      target and type, the refinement looks the record up and runs the TOTP
      check, and adds "Invalid code" after the shape issue exactly when the
      record is missing, expired or the code is rejected. */
  lemma WrongLengthStillConsultsStore(body: Fields, store: Store, now: nat, totp: (string, TotpConfig) -> bool)
    requires CodeParam in body && Utf16Length(body[CodeParam]) != CodeLength
    requires TargetParam in body && TypeParam in body && body[TypeParam] == OnboardingType
    ensures Issues(body, store, now, totp) ==
      if RecordAccepts(body, store, now, totp) then [SchemaIssue(CodeParam)]
      else [SchemaIssue(CodeParam), CustomIssue(CodeParam, InvalidCode)]
  {
  }

  /** When the object schema aborts (a missing field or a type other than
      "onboarding") the refinement never runs: any store and any checker
      give the same response, and nothing is consumed. */
  lemma AbortedNeverConsultsStore(body: Fields, s1: Store, s2: Store, cookie: Fields, now: nat,
                                  t1: (string, TotpConfig) -> bool, t2: (string, TotpConfig) -> bool,
                                  emailKey: string)
    requires SchemaAborts(body)
    ensures ValidateRequest(body, s1, cookie, now, t1, emailKey).response
         == ValidateRequest(body, s2, cookie, now, t2, emailKey).response
    ensures ValidateRequest(body, s1, cookie, now, t1, emailKey).state == s1
  {
  }

  /** The length check counts UTF-16 code units: a code of five characters
      whose last lies above U+FFFF has length six and passes the shape
      check, while six such characters make a length of twelve. */
  lemma CodeLengthCountsCodeUnits()
    ensures |"1234\U{1F600}"| == 5 && CodeShapeOk(map[CodeParam := "1234\U{1F600}"])
    ensures !CodeShapeOk(map[CodeParam := "\U{1F600}\U{1F600}\U{1F600}\U{1F600}\U{1F600}\U{1F600}"])
  {
  }

  /** Only the type "onboarding" is accepted: any other type fails the
      schema with an issue on `type`, and nothing is consumed. */
  lemma OnlyOnboardingType(body: Fields, store: Store, cookie: Fields, now: nat,
                           totp: (string, TotpConfig) -> bool, emailKey: string)
    requires TypeParam in body && body[TypeParam] != OnboardingType
    ensures SchemaIssue(TypeParam) in ValidateRequest(body, store, cookie, now, totp, emailKey).response.submission.issues
    ensures ValidateRequest(body, store, cookie, now, totp, emailKey).state == store
  {
  }

  /** A well-formed submission that is refused, whether the record is
      missing, expired or the code is wrong, gets exactly one issue,
      "Invalid code" on `code`: the response does not reveal which check failed. */
  lemma RefusalsAreIndistinguishable(body: Fields, store: Store, cookie: Fields, now: nat,
                                     totp: (string, TotpConfig) -> bool, emailKey: string)
    requires SchemaIssues(body) == []
    requires !CodeAccepted(body, store, now, totp)
    ensures ValidateRequest(body, store, cookie, now, totp, emailKey).response.submission.issues
         == [CustomIssue(CodeParam, InvalidCode)]
  {
  }

  /** A consumed code cannot be used again: after a successful submission,
      replaying the same body at any later time is refused with "Invalid
      code" and changes nothing more. */
  lemma NoReplay(body: Fields, store: Store, cookie: Fields, now: nat, later: nat,
                 totp: (string, TotpConfig) -> bool, emailKey: string)
    requires IntentOf(body) == SubmitIntent
    requires CodeAccepted(body, store, now, totp)
    ensures var after := ValidateRequest(body, store, cookie, now, totp, emailKey).state;
      && ValidateRequest(body, after, cookie, later, totp, emailKey).response.Submitted?
      && ValidateRequest(body, after, cookie, later, totp, emailKey).response.code == 400
      && ValidateRequest(body, after, cookie, later, totp, emailKey).response.submission.issues
         == [CustomIssue(CodeParam, InvalidCode)]
      && ValidateRequest(body, after, cookie, later, totp, emailKey).state == after
  {
  }

  /** The redirect after success ignores `redirectTo`: changing it changes
      neither the response nor the store. */
  lemma RedirectToIgnored(body: Fields, other: string, store: Store, cookie: Fields, now: nat,
                          totp: (string, TotpConfig) -> bool, emailKey: string)
    requires IntentOf(body) == SubmitIntent
    requires CodeAccepted(body, store, now, totp)
    ensures ValidateRequest(body[RedirectToParam := other], store, cookie, now, totp, emailKey)
         == ValidateRequest(body, store, cookie, now, totp, emailKey)
  {
  }
}
